=== FILE: README.md ===
# Session, profile and OAuth-callback logic of a learning-platform frontend

This project models, in Dafny, the OAuth callback route, the
authentication context's session/profile store and user operations, and the
profile editor's form logic of a learning-platform frontend, and proves
properties about them:

- **The OAuth callback route** (`OAuthCallback`, `callback.dfy`). The identity
  provider sends the browser back with an authorization response (section 4.1.2
  of RFC 6749) or an error response (section 4.1.2.1). The route exchanges
  `code` for a session and redirects: on success to the page named by `next`,
  defaulting to `/dashboard`; on failure to `/auth/auth-code-error`, carrying an
  `error_description`. The model is a pure function of the request origin, the
  `code`, `next` and `error_description` parameters, whether the exchange
  reported no error, and the URL constructor, which stays abstract as a parser
  `string -> Option<ParsedUrl>` that yields an origin and a serialisation or
  fails. The main property is that there is no open redirect: every success
  redirect stays on the request's origin.
- **The session/profile store** (`AuthStore`, `authstore.dfy`). The
  authentication context's state is `{session, profile, isLoading,
  isMobileSidebarOpen}`. It is written as a reducer over events: mount,
  `getSession` resolved or failed, auth-state notification, profile refresh, and
  sidebar toggle. Remote answers (the session, the profile row, its error and
  HTTP status, a thrown exception) are event inputs. Each handler, including the
  profile fetch it awaits, is one atomic step. Under that assumption the cached
  profile never outlives the session, and loading never comes back once it is
  over.
- **The user-initiated auth operations** (`AuthActions`, `authactions.dfy`).
  These are OAuth login, email/password login and signup, and logout. None of
  them takes or returns the store's state, so none writes session, profile or
  loading. Each yields its `{error}` result and the kind of notice shown. For
  signup, that includes the ordered choice between "confirm your email" and
  "signed in".
- **The profile editor's form logic** (`ProfileEditor`, `profileeditor.dfy`).
  The form is filled from the cached profile. On submit it is validated and
  turned into the update sent for the user's `profiles` row. This covers
  trimming, the required phone number, and the three-key social-link map that
  collapses to null.

`Types` (`types.dfy`) holds the shared shapes: `Profile`, its closed `Role`, the
session's `User`, and `AuthResult` (`{error: AuthError | null}`). `JsString`
(`jsstring.dfy`) models JavaScript's `trim` over the ECMAScript whitespace and
line-terminator characters, plus `startsWith`. `Wrappers` holds `Option` and
`Result`.

Modelling decisions:
- Absent (`undefined`) and `null` optional fields are both `None`.
- The profile type declares `social_links` as a map from strings to strings
  (src/types/index.ts:13). The editor nevertheless writes `null` values into it
  (src/app/profile/page.tsx:90-101). So `Profile.socialLinks` is
  `map<string, string>`, while the update's map is `map<string, Option<string>>`.
  `ApplyUpdate`, the row after an accepted update, drops null entries, because
  the profile type has no room for them. The form reads a null entry and a
  missing key alike, so this loses nothing the form can see.
- The serialisation of the error page's query string is not modelled: the
  error redirect carries the page URL and the unencoded description.

Behaviour of the code worth noting:
- A failed `getSession` clears the profile but leaves the session as it was.
  It does not force an anonymous state (src/context/AuthContext.tsx:88-92).
- "No profile row" is recognised only by HTTP status 406, and an error with that
  status still yields a row if one came back (src/context/AuthContext.tsx:48-60).
- The login and signup pages call `toast.dismiss()` without an id right after `loginWithEmailPassword` / `signUpWithEmailPassword` return (src/app/login/page.tsx:48, src/app/signup/page.tsx:62). With no id this dismisses every toast, including the error or success notice the operation has just shown, although the pages' comments rely on that notice being shown (src/app/login/page.tsx:50, src/app/signup/page.tsx:64). This is read from the source, not executed; the model states only that the operations show the notice (`ErrorReturnedIffShown`).
- A profile refresh with no session while the first load is still pending
  leaves `isLoading` true. `Refresh` states this.

## Model

| member | source | states |
|---|---|---|
| OAuthCallback.NextOrDefault | src/app/auth/callback/route.ts:9 | `??` semantics: a missing `next` becomes "/dashboard", but an empty `next` is kept as "" |
| OAuthCallback.ErrorDescription | src/app/auth/callback/route.ts:46-48 | JavaScript `or` semantics: a missing or empty incoming description is replaced by the fixed default message; the result is never empty |
| OAuthCallback.SuccessTarget | src/app/auth/callback/route.ts:17-37 | the target always stays on the request origin (origin + "/" prefix, or a URL that parsed to exactly that origin); a "/"-relative `next` gives origin ++ next; a same-origin absolute `next` gives its serialisation; a cross-origin or unparsable `next` gives origin ++ "/dashboard" (the "/" test is `JsString.StartsWith`, `next.startsWith("/")`) |
| OAuthCallback.HandleCallback | src/app/auth/callback/route.ts:5-52 | the exchange is attempted (with that code) iff `code` is truthy (`Truthy`: present and non-empty); a success redirect happens iff the code is truthy and the exchange succeeds, and then it goes to `SuccessTarget` of the `??`-defaulted `next` and stays on the origin; otherwise the redirect goes to origin ++ "/auth/auth-code-error" with the description chosen by JavaScript `or` |
| OAuthCallback.MissingNextLandsOnDashboard | src/app/auth/callback/route.ts:9-21 | with no `next`, a successful callback redirects to origin ++ "/dashboard" |
| OAuthCallback.EmptyNextLandsOnDashboard | src/app/auth/callback/route.ts:9-36 | an empty `next` survives `??`, fails the "/" test and fails to parse, so it ends at origin ++ "/dashboard" |
| OAuthCallback.FailureIgnoresNext | src/app/auth/callback/route.ts:41-51 | a failed callback (missing/empty code or failed exchange) gives the same response whatever `next` is |
| OAuthCallback.MissingCodeSkipsExchange | src/app/auth/callback/route.ts:11-13 | without a truthy code, no exchange is attempted and its result cannot affect the response |
| AuthStore.ProfileFromQuery | src/context/AuthContext.tsx:38-66 | the fetch yields the row exactly when a row came back and there was no error or the error status was 406; any other error, no row, or a thrown exception yields null |
| AuthStore.FetchUserProfile | src/context/AuthContext.tsx:29-71 | with no user, nothing is fetched and the profile is cleared; with a user, the fetch is for that user's id and sets the profile from it; loading always ends; session and sidebar are untouched |
| AuthStore.AdoptSession | src/context/AuthContext.tsx:78-105 | a `getSession` result or auth-change notification installs the reported session; if there is none, session and profile become null together; if there is one, the profile comes from a fetch for that session's user; loading ends and the state is consistent |
| AuthStore.Refresh | src/context/AuthContext.tsx:115-122 | with no session, nothing is fetched and nothing changes; with a session, only the profile (from a fetch for the session user) and the loading flag change |
| AuthStore.ToggleSidebar | src/context/AuthContext.tsx:268-270 | flips `isMobileSidebarOpen` and changes nothing else |
| AuthStore.ToggleTwice | src/context/AuthContext.tsx:268-270 | applying the toggle twice is the identity |
| AuthStore.Step | src/context/AuthContext.tsx:73-122 | each handler keeps "profile present ⇒ session present"; settling events end loading; only mount can leave loading true when it was false; only the toggle moves the sidebar; a fetch is always for the user of the resulting session; a failed `getSession` clears the profile and keeps the session |
| AuthStore.RunKeepsConsistent | src/context/AuthContext.tsx:80-105 | for any sequence of handlers, the profile is non-null only while the session is non-null |
| AuthStore.LoadingNeverReturns | src/context/AuthContext.tsx:75-105 | once loading is false, no sequence of handlers without a mount sets it back to true |
| AuthStore.LoadingMeansUntouched | src/context/AuthContext.tsx:73-122 | while loading is still true after a run without a mount, session and profile are those the run started from |
| AuthStore.SettledStaysSettled | src/context/AuthContext.tsx:80-105 | after a settling event, with no mount afterwards, loading stays false |
| AuthStore.ReachablePhases | src/context/AuthContext.tsx:22-107 | starting from the initial state (no session, no profile, loading, sidebar closed), with at most an initial mount: the store is anonymous only with no profile, stops initializing after the first settling event, and is never seen resolving a profile. The last fact holds only because each handler and its awaited fetch form one step: the running code does pass through "session present, loading true" between `setSession` (lines 80/97) and the fetch's `finally` (line 69) |
| AuthActions.LoginWithProvider | src/context/AuthContext.tsx:124-156 | the OAuth request names "google" or "azure" and returns to the callback route on the page's own origin; an error is shown exactly when the service reports one |
| AuthActions.ProviderId | src/context/AuthContext.tsx:126-148 | Google is requested as "google" and Microsoft as "azure", and no other pairing holds |
| AuthActions.ProvidersShareCallback | src/context/AuthContext.tsx:124-156 | both providers return to the same callback URL and get the same notice for the same reply; their requests differ only in the provider named |
| AuthActions.Logout | src/context/AuthContext.tsx:158-173 | a sign-out error is shown; success shows nothing and clears no state |
| AuthActions.LoginWithPassword | src/context/AuthContext.tsx:235-266 | returns `{error}` and an error notice on failure, `{error: null}` and the success notice on success |
| AuthActions.SignUp | src/context/AuthContext.tsx:175-233 | returns `{error}` on failure and `{error: null}` on success; the signed-in notice appears iff there is a session and the user does not have an empty identity list (`NoIdentities`); the confirm-email notice appears iff there is a user with an empty identity list or no session; no notice iff neither user nor session came back |
| AuthActions.ErrorReturnedIffShown | src/context/AuthContext.tsx:202-258 | login and signup return an error exactly when they have already shown an error notice, and it is the same error |
| AuthActions.PendingConfirmationIsNotSignedIn | src/context/AuthContext.tsx:212-230 | a signup reply with a user but no session always asks for email confirmation and never announces a signed-in user |
| ProfileEditor.LinkOf | src/app/profile/page.tsx:61-63 | a missing link map or a missing key reads as "" |
| ProfileEditor.FormFromProfile | src/app/profile/page.tsx:57-64 | each null/absent name, phone and bio becomes "" and present ones are copied; each link field is read with `LinkOf` (the stored link if present, else ""), so a null link map gives three empty link fields and keys beyond the three are ignored |
| ProfileEditor.InitialFormStaysEmpty | src/app/profile/page.tsx:42-67 | the form starts empty and stays empty until loading is over with a session and a cached profile |
| ProfileEditor.SyncForm | src/app/profile/page.tsx:52-67 | the form changes only when loading is over, a session exists and a profile is cached, and then it is filled from that profile; a redirect to "/login?next=/profile" happens iff loading is over and there is no session |
| ProfileEditor.LinkValue | src/app/profile/page.tsx:91-101 | a link becomes null iff its trimmed text is empty, otherwise its trimmed text |
| ProfileEditor.LinksMap | src/app/profile/page.tsx:90-101 | a link map has exactly the keys linkedin, twitter and github, each holding its own value |
| ProfileEditor.LinksPayload | src/app/profile/page.tsx:90-101 | the payload map built from the form has exactly the three keys, each the trimmed link or null |
| ProfileEditor.FinalLinks | src/app/profile/page.tsx:103-109 | the links sent are either the map itself or null; the map is sent exactly when some entry is non-null with non-blank text (`HasLink`, the `some()` test), so an all-null map is sent as null |
| ProfileEditor.LinksNullIffAllBlank | src/app/profile/page.tsx:103-109 | the sent social_links is null iff all three trimmed links are empty; otherwise it is the full three-key map |
| ProfileEditor.Submit | src/app/profile/page.tsx:76-117 | with no session user, the submit is rejected before any other check; with a blank phone, it is rejected; otherwise the update targets the session user's id and carries name, phone and bio trimmed, a non-empty phone, and the three-key link map or null |
| ProfileEditor.SubmitThenReload | src/app/profile/page.tsx:57-117 | saving a form and reading the updated row back into the form gives exactly the trimmed form |
| ProfileEditor.ResubmitUnchanged | src/app/profile/page.tsx:57-117 | saving a loaded profile unchanged turns a null name or bio into "" (not null), and link keys other than the three are not carried |
| ProfileEditor.FinalLinksOfThree | src/app/profile/page.tsx:103-109 | a three-key map of null or non-blank links is sent as null exactly when all three are null |
| ProfileEditor.NoLinkWhenAllNull | src/app/profile/page.tsx:105-109 | an all-null link map is not sent |
| ProfileEditor.LinkValueNotBlank | src/app/profile/page.tsx:91-106 | a non-null link value passes the "non-blank" test of the some() check |
| JsString.Trim | src/app/profile/page.tsx:82-115 | `trim()` yields a string no longer than its input that neither starts nor ends with whitespace |
| JsString.TrimIsInfix | src/app/profile/page.tsx:82-115 | `trim()` yields an infix `s[i..j]` of its input, and what it cuts off on either side is all whitespace |
| JsString.TrimEmptyIffBlank | src/app/profile/page.tsx:82-85 | `!x.trim()` holds exactly when x consists only of whitespace |
| JsString.TrimIdempotent | src/app/profile/page.tsx:105-106 | re-trimming an already trimmed link changes nothing |
| Types.RoleName | src/types/index.ts:9 | a role is stored as exactly one of "student", "teacher", "admin" |
| Types.ParseRole | src/types/index.ts:9 | exactly the three role literals are roles, and each reads back to its literal |
| Types.RoleNameRoundTrip | src/types/index.ts:9 | each role is recovered from its literal, so the three literals are distinct |

`Profile.id`, `Profile.role` and `Profile.isPhonePublic` are mandatory fields
of the datatype, and every other profile field is an `Option` (src/types/index.ts:5-13).
`AuthResult` is `{error: AuthError | null}` (src/types/index.ts:27-35).

## Left out

- The Supabase client factories, cookie plumbing and the route-matching middleware: they are thin wrappers over the SDK and the framework's cookie store.
- All remote calls (`exchangeCodeForSession`, `getSession`, the auth-change subscription and its unsubscribe, the `profiles` select and update, `signInWithOAuth`, `signUp`, `signInWithPassword`, `signOut`): their answers are inputs to the model functions and events.
- Asynchronous interleaving: each handler with its awaited fetch is one atomic step. If fetch resolution were a separate event, the consistency invariant would not hold. The code clears nothing before a new fetch and never cancels a stale one, so a late answer for an old session could install a profile after a logout.
- Real URL parsing and serialisation (`new URL`, `toString`, `window.location.origin`, the query-string encoding of `error_description`): the parser is a parameter. That an empty `next` fails to parse is a precondition of `EmptyNextLandsOnDashboard`.
- Toast texts, console logging, router navigation other than the profile page's login redirect, and the `updated_at` timestamp of the update: these are side effects or read the clock. Notices are modelled by kind only.
- The profile page after the update is sent (src/app/profile/page.tsx:119-156): the remote error handling, the toasts and the follow-up `refreshUserProfile` are remote-call plumbing. The refresh itself is `AuthStore.Refresh`.
- The signup metadata (`full_name` passed to `signUp`) is forwarded unchanged to the remote service and has no local effect.
- `useAuth` throwing outside the provider (src/context/AuthContext.tsx:289-295) is a React usage guard.
- A second mount: the effect runs once per provider. The phase lemma assumes at most one mount, at the start.
- Remote calls that reject instead of returning an error are not modelled: `exchangeCodeForSession` (src/app/auth/callback/route.ts:13) is awaited outside any try, so a rejection makes the route throw with no redirect; a rejection of `signInWithOAuth`, `signOut`, `signUp` or `signInWithPassword` (src/context/AuthContext.tsx:126, 161, 190, 246) leaves the operation with no result and no notice. The model's callback and operations always yield a redirect or an outcome, because only returned answers are inputs. Only the profile fetch, which does catch (src/context/AuthContext.tsx:61-66), has a `Threw` input.
- JsString.Trim: its own contract states only that the result is no longer than the input and has no whitespace at either end; the infix characterisation is the lemma `TrimIsInfix`, because as a postcondition it puts `trimStart` terms into every proof that mentions trimming and makes them run out of resource.
- The login and signup pages are left out as callers of the modelled operations. Their own behaviour is not modelled: the loading toast each shows before calling the store (src/app/login/page.tsx:44, src/app/signup/page.tsx:45), the signup page's rejection of a blank full name before calling `signUp` (src/app/signup/page.tsx:47-52), and the id-less `toast.dismiss()` each runs right after the call returns (src/app/login/page.tsx:48, src/app/signup/page.tsx:62).
- Presentational components and pages (landing sections, dashboard, navigation, course catalog, error page, framework configuration) only render store state or static data.

=== FILE: authactions.dfy ===
/** The user-initiated authentication operations of the authentication
    context: OAuth login, email/password login and signup, and logout. None of
    them takes or returns the store's state; the session they produce reaches
    the store later, as an auth-state notification. What they yield is the
    result record and which notice the user is shown. */
module AuthActions {
  import opened Wrappers
  import opened JsString
  import opened Types

  /** The route the identity provider sends the browser back to. */
  const CallbackPath: string := "/auth/callback"

  /** The identity providers offered. */
  datatype Provider = Google | Microsoft

  /** The notice shown to the user, by kind. */
  datatype Notice =
    | NoNotice
    | ErrorNotice(error: AuthError)
    | ConfirmEmailNotice
    | SignedUpNotice
    | LoggedInNotice

  /** An OAuth start request: the provider's identifier and the return URL. */
  datatype OAuthRequest = OAuthRequest(provider: string, redirectTo: string)

  /** `loginWithGoogle()` / `loginWithMicrosoft()`: the request sent, and the
      notice shown for the service's reply (an error or nothing). */
  datatype OAuthAttempt = OAuthAttempt(request: OAuthRequest, notice: Notice)

  /** The service's identifier for a provider. */
  function ProviderId(p: Provider): (id: string)
    ensures p == Google <==> id == "google"
    ensures p == Microsoft <==> id == "azure"
  {
    match p
    case Google => "google"
    case Microsoft => "azure"
  }

  /** Starts an OAuth login from a page at `windowOrigin`. The browser is sent
      back to the callback route on the same origin; an error is only shown. */
  function LoginWithProvider(p: Provider, windowOrigin: string, reply: Option<AuthError>): (r: OAuthAttempt)
    ensures r.request.provider == ProviderId(p)
    ensures StartsWith(r.request.redirectTo, windowOrigin + "/")
    ensures r.request.redirectTo[|windowOrigin|..] == CallbackPath
    ensures reply.Some? <==> r.notice.ErrorNotice?
    ensures reply.Some? ==> r.notice.error == reply.value
    ensures reply.None? ==> r.notice == NoNotice
  {
    StartsWithAppend(windowOrigin, CallbackPath);
    OAuthAttempt(OAuthRequest(ProviderId(p), windowOrigin + CallbackPath),
                 match reply case Some(err) => ErrorNotice(err) case None => NoNotice)
  }

  /** `logout()`: the sign-out error, if any, is shown; success shows nothing
      and clears nothing here. */
  function Logout(reply: Option<AuthError>): (notice: Notice)
    ensures notice.ErrorNotice? <==> reply.Some?
    ensures reply.Some? ==> notice == ErrorNotice(reply.value)
    ensures reply.None? ==> notice == NoNotice
  {
    match reply
    case Some(err) => ErrorNotice(err)
    case None => NoNotice
  }

  /** Both providers return to the same callback URL and get the same notice
      for the same reply; their requests differ only in the provider named. */
  lemma ProvidersShareCallback(windowOrigin: string, reply: Option<AuthError>)
    ensures LoginWithProvider(Google, windowOrigin, reply).request.redirectTo
            == LoginWithProvider(Microsoft, windowOrigin, reply).request.redirectTo
    ensures LoginWithProvider(Google, windowOrigin, reply).notice
            == LoginWithProvider(Microsoft, windowOrigin, reply).notice
    ensures LoginWithProvider(Google, windowOrigin, reply).request.provider
            != LoginWithProvider(Microsoft, windowOrigin, reply).request.provider
  {
  }

  /** The reply to `signInWithPassword`. */
  datatype SignInReply = SignInFailed(error: AuthError) | SignedIn(session: Session)

  /** The reply to `signUp`: the created user and session, either possibly absent. */
  datatype SignUpReply = SignUpFailed(error: AuthError) | SignedUp(user: Option<User>, session: Option<Session>)

  /** What login and signup resolve to, with the notice shown. */
  datatype Outcome = Outcome(result: AuthResult, notice: Notice)

  /** `loginWithEmailPassword`: the error on failure, no error on success. */
  function LoginWithPassword(reply: SignInReply): (r: Outcome)
    ensures reply.SignInFailed? ==> r == Outcome(AuthResult(Some(reply.error)), ErrorNotice(reply.error))
    ensures reply.SignedIn? ==> r.result.error.None? && r.notice == LoggedInNotice
  {
    match reply
    case SignInFailed(err) => Outcome(AuthResult(Some(err)), ErrorNotice(err))
    case SignedIn(_) => Outcome(AuthResult(None), LoggedInNotice)
  }

  /** The user exists but has no linked identity (`identities` is an empty list). */
  predicate NoIdentities(user: Option<User>) {
    user.Some? && user.value.identities.Some? && |user.value.identities.value| == 0
  }

  /** `signUpWithEmailPassword`: the error on failure, no error on success. On
      success the notice is chosen in order: a user with an empty identity
      list asks for email confirmation, else a session announces the signed-in
      user, else a user asks for email confirmation, else nothing is shown. */
  function SignUp(reply: SignUpReply): (r: Outcome)
    ensures reply.SignUpFailed? ==> r == Outcome(AuthResult(Some(reply.error)), ErrorNotice(reply.error))
    ensures reply.SignedUp? ==> r.result.error.None?
    ensures r.notice == SignedUpNotice <==>
              reply.SignedUp? && reply.session.Some? && !NoIdentities(reply.user)
    ensures r.notice == ConfirmEmailNotice <==>
              reply.SignedUp? && reply.user.Some? && (NoIdentities(reply.user) || reply.session.None?)
    ensures r.notice == NoNotice <==> reply.SignedUp? && reply.user.None? && reply.session.None?
  {
    match reply
    case SignUpFailed(err) => Outcome(AuthResult(Some(err)), ErrorNotice(err))
    case SignedUp(user, session) =>
      var notice :=
        if NoIdentities(user) then ConfirmEmailNotice
        else if session.Some? then SignedUpNotice
        else if user.Some? then ConfirmEmailNotice
        else NoNotice;
      Outcome(AuthResult(None), notice)
  }

  /** Login and signup return an error exactly when they have already shown
      an error notice for that same error. */
  lemma ErrorReturnedIffShown(signIn: SignInReply, signUp: SignUpReply)
    ensures var r := LoginWithPassword(signIn);
            && (r.result.error.Some? <==> r.notice.ErrorNotice?)
            && (r.result.error.Some? ==> r.notice.error == r.result.error.value)
    ensures var r := SignUp(signUp);
            && (r.result.error.Some? <==> r.notice.ErrorNotice?)
            && (r.result.error.Some? ==> r.notice.error == r.result.error.value)
  {
  }

  /** A signup reply with a user but no session never announces a signed-in
      user, whatever the identities say. */
  lemma PendingConfirmationIsNotSignedIn(user: User)
    ensures SignUp(SignedUp(Some(user), None)).notice == ConfirmEmailNotice
    ensures SignUp(SignedUp(Some(user), None)).result == AuthResult(None)
  {
  }
}

=== FILE: authstore.dfy ===
/** The session/profile store behind the authentication context, written as a
    reducer. Each handler, together with the profile fetch it awaits, is one
    atomic step; the remote answers (the session, the profile row, an error,
    a status) arrive as parts of the event. */
module AuthStore {
  import opened Wrappers
  import opened Types

  /** The store's state. */
  datatype State = State(
    session: Option<Session>,
    profile: Option<Profile>,
    isLoading: bool,
    isMobileSidebarOpen: bool)

  /** The state the provider starts in: nobody known, loading, sidebar closed. */
  const Initial: State := State(None, None, true, false)

  /** An error reported by the `profiles` query. */
  datatype QueryError = QueryError(message: string, code: string)

  /** How the single-row `profiles` query ended: with its data, error and HTTP
      status, or by throwing. */
  datatype ProfileQuery =
    | Answered(data: Option<Profile>, error: Option<QueryError>, status: int)
    | Threw

  /** The HTTP status the query reports when no row matched. */
  const NoRowStatus: int := 406

  /** A state after a step, with the user whose profile the step fetched
      (None when it fetched nothing). */
  datatype Transition = Transition(next: State, fetchedFor: Option<string>)

  /** What the store sees, one handler at a time. */
  datatype Event =
    | Mounted
    | SessionRetrieved(session: Option<Session>, query: ProfileQuery)
    | SessionRetrievalFailed
    | AuthStateChanged(session: Option<Session>, query: ProfileQuery)
    | RefreshRequested(query: ProfileQuery)
    | SidebarToggled

  /** The cached profile never outlives the session. */
  predicate Consistent(s: State) {
    s.profile.Some? ==> s.session.Some?
  }

  /** Same session and same cached profile. */
  predicate SameIdentity(a: State, b: State) {
    a.session == b.session && a.profile == b.profile
  }

  /** Events whose handler always finishes a load. */
  predicate Settles(e: Event) {
    e.SessionRetrieved? || e.SessionRetrievalFailed? || e.AuthStateChanged?
  }

  /** The profile a fetch yields: the row when the query answered with one and
      either no error or the no-row status; nothing on any other error, on an
      empty answer or when the query threw. */
  function ProfileFromQuery(q: ProfileQuery): (p: Option<Profile>)
    ensures p.Some? <==> q.Answered? && q.data.Some? && (q.error.None? || q.status == NoRowStatus)
    ensures p.Some? ==> p == q.data
  {
    match q
    case Threw => None
    case Answered(data, error, status) =>
      if error.Some? && status != NoRowStatus then None
      else if data.Some? then data
      else None
  }

  /** `fetchUserProfile(user)`: with no user nothing is fetched and the profile
      is cleared; otherwise the profile is replaced by the fetch result. Either
      way loading ends, and session and sidebar are left alone. */
  function FetchUserProfile(s: State, user: Option<User>, q: ProfileQuery): (t: Transition)
    ensures t.next.session == s.session
    ensures t.next.isMobileSidebarOpen == s.isMobileSidebarOpen
    ensures !t.next.isLoading
    ensures user.None? ==> t.fetchedFor.None? && t.next.profile.None?
    ensures user.Some? ==> t.fetchedFor == Some(user.value.id)
                           && t.next.profile == ProfileFromQuery(q)
  {
    match user
    case None => Transition(s.(profile := None, isLoading := false), None)
    case Some(u) => Transition(s.(profile := ProfileFromQuery(q), isLoading := false), Some(u.id))
  }

  /** A session reported by `getSession` or by an auth-state notification:
      the session is taken over, then the profile is fetched for its user, or
      cleared together with it when there is none. */
  function AdoptSession(s: State, session: Option<Session>, q: ProfileQuery): (t: Transition)
    ensures t.next.session == session
    ensures t.next.isMobileSidebarOpen == s.isMobileSidebarOpen
    ensures !t.next.isLoading
    ensures Consistent(t.next)
    ensures session.None? ==> t.next.profile.None? && t.fetchedFor.None?
    ensures session.Some? ==> t.fetchedFor == Some(session.value.user.id)
                              && t.next.profile == ProfileFromQuery(q)
  {
    var withSession := s.(session := session);
    match session
    case Some(sess) => FetchUserProfile(withSession, Some(sess.user), q)
    case None => Transition(withSession.(profile := None, isLoading := false), None)
  }

  /** `refreshUserProfile()`: refetches for the current user, and without a
      session makes no fetch and changes nothing. */
  function Refresh(s: State, q: ProfileQuery): (t: Transition)
    ensures s.session.None? ==> t == Transition(s, None)
    ensures s.session.Some? ==> t.fetchedFor == Some(s.session.value.user.id)
                                && t.next == s.(profile := ProfileFromQuery(q), isLoading := false)
  {
    if s.session.Some? then FetchUserProfile(s, Some(s.session.value.user), q)
    else Transition(s, None)
  }

  /** `toggleMobileSidebar()`. */
  function ToggleSidebar(s: State): (r: State)
    ensures r.isMobileSidebarOpen != s.isMobileSidebarOpen
    ensures r.(isMobileSidebarOpen := s.isMobileSidebarOpen) == s
  {
    s.(isMobileSidebarOpen := !s.isMobileSidebarOpen)
  }

  /** Toggling twice restores the state. */
  lemma ToggleTwice(s: State)
    ensures ToggleSidebar(ToggleSidebar(s)) == s
  {
  }

  /** One handler. */
  function Step(s: State, e: Event): (t: Transition)
    ensures Consistent(s) ==> Consistent(t.next)
    ensures Settles(e) ==> !t.next.isLoading
    ensures t.next.isLoading ==> s.isLoading || e.Mounted?
    ensures !e.SidebarToggled? ==> t.next.isMobileSidebarOpen == s.isMobileSidebarOpen
    ensures t.fetchedFor.Some? ==> t.next.session.Some?
                                   && t.fetchedFor.value == t.next.session.value.user.id
    ensures e.SessionRetrievalFailed? ==> t.next.session == s.session && t.next.profile.None?
    ensures !e.Mounted? && s.isLoading && t.next.isLoading ==> SameIdentity(t.next, s)
  {
    match e
    case Mounted => Transition(s.(isLoading := true), None)
    case SessionRetrieved(session, q) => AdoptSession(s, session, q)
    case SessionRetrievalFailed => Transition(s.(profile := None, isLoading := false), None)
    case AuthStateChanged(session, q) => AdoptSession(s, session, q)
    case RefreshRequested(q) => Refresh(s, q)
    case SidebarToggled => Transition(ToggleSidebar(s), None)
  }

  /** The state after handling `events` in order. */
  function Run(s: State, events: seq<Event>): State
    decreases |events|
  {
    if |events| == 0 then s else Run(Step(s, events[0]).next, events[1..])
  }

  /** No sequence of handlers lets the profile outlive the session. */
  lemma {:induction false} RunKeepsConsistent(s: State, events: seq<Event>)
    requires Consistent(s)
    ensures Consistent(Run(s, events))
    decreases |events|
  {
    if |events| > 0 {
      RunKeepsConsistent(Step(s, events[0]).next, events[1..]);
    }
  }

  /** Only mounting sets the loading flag: once a load has finished, no
      sequence of handlers without a mount brings it back. */
  lemma {:induction false} LoadingNeverReturns(s: State, events: seq<Event>)
    requires !s.isLoading
    requires forall i :: 0 <= i < |events| ==> !events[i].Mounted?
    ensures !Run(s, events).isLoading
    decreases |events|
  {
    if |events| > 0 {
      assert !events[0].Mounted?;
      LoadingNeverReturns(Step(s, events[0]).next, events[1..]);
    }
  }

  /** While loading, the handlers seen since mounting settled nothing, so
      session and profile are the ones the load started from. */
  lemma {:induction false} LoadingMeansUntouched(s: State, events: seq<Event>)
    requires forall i :: 0 <= i < |events| ==> !events[i].Mounted?
    requires Run(s, events).isLoading
    ensures SameIdentity(Run(s, events), s)
    decreases |events|
  {
    if |events| > 0 {
      var t := Step(s, events[0]);
      assert !events[0].Mounted?;
      if !t.next.isLoading {
        LoadingNeverReturns(t.next, events[1..]);
      }
      LoadingMeansUntouched(t.next, events[1..]);
    }
  }

  /** The phases a store can be in. */
  datatype Phase = Initializing | ResolvingProfile | Authenticated | Anonymous

  function PhaseOf(s: State): Phase {
    if s.isLoading then (if s.session.Some? then ResolvingProfile else Initializing)
    else if s.session.Some? then Authenticated
    else Anonymous
  }

  /** Started from the initial state and mounted at most once at the start,
      the store is never seen resolving a profile (the fetch is part of the
      handler), it is anonymous only with no profile, and it stays
      initializing only until the first settling event. */
  lemma {:induction false} ReachablePhases(events: seq<Event>)
    requires forall i :: 0 < i < |events| ==> !events[i].Mounted?
    ensures PhaseOf(Run(Initial, events)) != ResolvingProfile
    ensures PhaseOf(Run(Initial, events)) == Anonymous ==> Run(Initial, events).profile.None?
    ensures (exists i :: 0 <= i < |events| && Settles(events[i]))
            ==> PhaseOf(Run(Initial, events)) != Initializing
  {
    if |events| > 0 {
      var first := Step(Initial, events[0]).next;
      var rest := events[1..];
      assert Run(Initial, events) == Run(first, rest);
      assert forall i :: 0 <= i < |rest| ==> !rest[i].Mounted? by {
        forall i | 0 <= i < |rest| ensures !rest[i].Mounted? {
          assert rest[i] == events[i + 1];
        }
      }
      RunKeepsConsistent(first, rest);
      if first.isLoading {
        assert SameIdentity(first, Initial);
        if Run(first, rest).isLoading {
          LoadingMeansUntouched(first, rest);
        }
      } else {
        LoadingNeverReturns(first, rest);
      }
      if exists i :: 0 <= i < |events| && Settles(events[i]) {
        var i :| 0 <= i < |events| && Settles(events[i]);
        if i > 0 && Run(first, rest).isLoading {
          assert rest[i - 1] == events[i];
          SettledStaysSettled(first, rest, i - 1);
        }
      }
    }
  }

  /** After a settling event (and no mount), loading stays finished. */
  lemma {:induction false} SettledStaysSettled(s: State, events: seq<Event>, i: nat)
    requires i < |events| && Settles(events[i])
    requires forall j :: 0 <= j < |events| ==> !events[j].Mounted?
    ensures !Run(s, events).isLoading
    decreases |events|
  {
    assert !events[0].Mounted?;
    var t := Step(s, events[0]).next;
    if i == 0 {
      LoadingNeverReturns(t, events[1..]);
    } else {
      assert events[1..][i - 1] == events[i];
      SettledStaysSettled(t, events[1..], i - 1);
    }
  }
}

=== FILE: callback.dfy ===
/** The OAuth callback route: after the identity provider sends the browser
    back with an authorization response (section 4.1.2 of RFC 6749) or an error
    response (section 4.1.2.1), the route exchanges the `code` for a session and
    redirects either to the page named by `next` or to the error page. */
module OAuthCallback {
  import opened Wrappers
  import opened JsString

  /** Where a successful login lands when `next` is missing or unusable. */
  const DashboardPath: string := "/dashboard"

  /** The page that explains a failed callback. */
  const ErrorPagePath: string := "/auth/auth-code-error"

  /** The description used when the request carries none. */
  const DefaultErrorDescription: string :=
    "OAuth callback failed due to missing code or an exchange error."

  /** What `new URL(text)` yields when it does not throw: the URL's origin and
      its serialisation (`toString()`). */
  datatype ParsedUrl = ParsedUrl(origin: string, href: string)

  /** `new URL(text)`, kept abstract: None where the constructor throws. */
  type UrlParser = string -> Option<ParsedUrl>

  /** The redirect the route answers with. The error page carries its
      `error_description` query parameter unserialised. */
  datatype Redirect =
    | Location(url: string)
    | ErrorPage(url: string, errorDescription: string)

  /** The route's answer, together with the code it handed to the session
      exchange (None when no exchange was attempted). */
  datatype CallbackResponse = CallbackResponse(exchangedCode: Option<string>, redirect: Redirect)

  /** A query parameter JavaScript treats as true: present and not empty. */
  predicate Truthy(param: Option<string>) {
    param.Some? && param.value != ""
  }

  /** `searchParams.get("next") ?? "/dashboard"`: only a missing parameter is
      replaced, an empty one is kept. */
  function NextOrDefault(next: Option<string>): (target: string)
    ensures next.None? ==> target == DashboardPath
    ensures next.Some? ==> target == next.value
  {
    next.GetOr(DashboardPath)
  }

  /** `searchParams.get("error_description") || default`: a missing and an
      empty description are both replaced. */
  function ErrorDescription(param: Option<string>): (description: string)
    ensures Truthy(param) ==> description == param.value
    ensures !Truthy(param) ==> description == DefaultErrorDescription
    ensures description != ""
  {
    if Truthy(param) then param.value else DefaultErrorDescription
  }

  /** A redirect target stays on the request's origin: it is that origin
      followed by a path, or the serialisation of a URL that parsed to that
      very origin. */
  predicate StaysOnOrigin(url: string, origin: string, parsedNext: Option<ParsedUrl>) {
    StartsWith(url, origin + "/") || parsedNext == Some(ParsedUrl(origin, url))
  }

  /** The target chosen after a successful exchange. */
  function SuccessTarget(origin: string, next: string, parse: UrlParser): (url: string)
    ensures StaysOnOrigin(url, origin, parse(next))
    ensures StartsWith(next, "/") ==> url == origin + next
    ensures !StartsWith(next, "/") && parse(next).Some? && parse(next).value.origin == origin
            ==> url == parse(next).value.href
    ensures !StartsWith(next, "/") && (parse(next).None? || parse(next).value.origin != origin)
            ==> url == origin + DashboardPath
  {
    if StartsWith(next, "/") then
      StartsWithAppend(origin, next);
      origin + next
    else
      var fallback := origin + DashboardPath;
      StartsWithAppend(origin, DashboardPath);
      match parse(next)
      case Some(u) => if u.origin == origin then u.href else fallback
      case None => fallback
  }

  /** The whole route: `origin` is the request URL's origin, `code`, `next`
      and `errorDescription` its query parameters, `exchangeOk` whether the
      session exchange reported no error (consulted only when an exchange is
      attempted) and `parse` the URL constructor. */
  function HandleCallback(origin: string, code: Option<string>, next: Option<string>,
                          errorDescription: Option<string>, exchangeOk: bool,
                          parse: UrlParser): (r: CallbackResponse)
    ensures r.exchangedCode == (if Truthy(code) then code else None)
    ensures r.redirect.Location? <==> Truthy(code) && exchangeOk
    ensures r.redirect.Location? ==>
              StaysOnOrigin(r.redirect.url, origin, parse(NextOrDefault(next)))
    ensures r.redirect.Location? ==> r.redirect.url == SuccessTarget(origin, NextOrDefault(next), parse)
    ensures r.redirect.ErrorPage? ==>
              r.redirect.url == origin + ErrorPagePath
              && r.redirect.errorDescription == ErrorDescription(errorDescription)
  {
    if Truthy(code) && exchangeOk then
      CallbackResponse(code, Location(SuccessTarget(origin, NextOrDefault(next), parse)))
    else
      CallbackResponse(if Truthy(code) then code else None,
                       ErrorPage(origin + ErrorPagePath, ErrorDescription(errorDescription)))
  }

  /** Without `next`, a successful login lands on the dashboard. */
  lemma MissingNextLandsOnDashboard(origin: string, code: string, errorDescription: Option<string>,
                                    parse: UrlParser)
    requires code != ""
    ensures HandleCallback(origin, Some(code), None, errorDescription, true, parse).redirect
            == Location(origin + DashboardPath)
  {
  }

  /** An empty `next` survives `??`, fails `startsWith("/")` and throws in the
      URL constructor, so it too lands on the dashboard. */
  lemma EmptyNextLandsOnDashboard(origin: string, code: string, errorDescription: Option<string>,
                                  parse: UrlParser)
    requires code != ""
    requires parse("") == None
    ensures NextOrDefault(Some("")) == ""
    ensures HandleCallback(origin, Some(code), Some(""), errorDescription, true, parse).redirect
            == Location(origin + DashboardPath)
  {
  }

  /** A failed callback redirects to the same error page whatever `next` says. */
  lemma FailureIgnoresNext(origin: string, code: Option<string>, next1: Option<string>,
                           next2: Option<string>, errorDescription: Option<string>,
                           exchangeOk: bool, parse: UrlParser)
    requires !(Truthy(code) && exchangeOk)
    ensures HandleCallback(origin, code, next1, errorDescription, exchangeOk, parse)
            == HandleCallback(origin, code, next2, errorDescription, exchangeOk, parse)
  {
  }

  /** Without a usable code the exchange result plays no part: the exchange
      is never attempted. */
  lemma MissingCodeSkipsExchange(origin: string, code: Option<string>, next: Option<string>,
                                 errorDescription: Option<string>, parse: UrlParser)
    requires !Truthy(code)
    ensures HandleCallback(origin, code, next, errorDescription, true, parse)
            == HandleCallback(origin, code, next, errorDescription, false, parse)
    ensures HandleCallback(origin, code, next, errorDescription, true, parse).exchangedCode == None
  {
  }
}

=== FILE: jsstring.dfy ===
/** The two JavaScript string operations the application relies on:
    `String.prototype.trim` and `String.prototype.startsWith`. */
module JsString {

  /** The characters `trim` strips at either end: ECMAScript WhiteSpace
      (tab, vertical tab, form feed, space, no-break space, byte-order mark and
      every other space separator) and LineTerminator (LF, CR, LS, PS). */
  predicate IsSpace(c: char) {
    || c == '\t' || c == '\n' || c == '\U{000B}' || c == '\U{000C}' || c == '\r'
    || c == ' ' || c == '\U{00A0}' || c == '\U{1680}'
    || ('\U{2000}' <= c && c <= '\U{200A}')
    || c == '\U{2028}' || c == '\U{2029}' || c == '\U{202F}' || c == '\U{205F}'
    || c == '\U{3000}' || c == '\U{FEFF}'
  }

  /** Every character is one `trim` strips; JavaScript calls `s.trim()` falsy. */
  predicate Blank(s: string) {
    forall i :: 0 <= i < |s| ==> IsSpace(s[i])
  }

  /** `s.startsWith(p)`. */
  predicate StartsWith(s: string, p: string) {
    |p| <= |s| && s[..|p|] == p
  }

  /** `s.trimStart()`: the suffix of `s` left after dropping leading spaces. */
  function TrimStart(s: string): (r: string)
    ensures |r| <= |s| && r == s[|s| - |r|..]
    ensures r == [] || !IsSpace(r[0])
    ensures forall i :: 0 <= i < |s| - |r| ==> IsSpace(s[i])
  {
    if |s| > 0 && IsSpace(s[0]) then TrimStart(s[1..]) else s
  }

  /** `s.trimEnd()`: the prefix of `s` left after dropping trailing spaces. */
  function TrimEnd(s: string): (r: string)
    ensures |r| <= |s| && r == s[..|r|]
    ensures r == [] || !IsSpace(r[|r| - 1])
    ensures forall i :: |r| <= i < |s| ==> IsSpace(s[i])
  {
    if |s| > 0 && IsSpace(s[|s| - 1]) then TrimEnd(s[..|s| - 1]) else s
  }

  /** `s.trim()`. `TrimIsInfix` states what it keeps and what it drops. */
  function Trim(s: string): (r: string)
    ensures |r| <= |s|
    ensures r == [] || (!IsSpace(r[0]) && !IsSpace(r[|r| - 1]))
  {
    TrimEnd(TrimStart(s))
  }

  /** `s.trim()` is an infix `s[i..j]` of `s` and what it cuts off on either
      side, `s[..i]` and `s[j..]`, is all spaces. */
  lemma {:induction false} TrimIsInfix(s: string)
    ensures exists i, j :: 0 <= i <= j <= |s| && Trim(s) == s[i..j] && Blank(s[..i]) && Blank(s[j..])
  {
    var t := TrimStart(s);
    var r := TrimEnd(t);
    assert Trim(s) == r;
    var i := |s| - |t|;
    PrefixOfSuffix(s, t, r);
    var j := i + |r|;
    LeadingBlank(s);
    assert Blank(s[j..]) by {
      forall k | 0 <= k < |s| - j ensures IsSpace(s[j..][k]) {
        assert s[j..][k] == s[j + k];
      }
    }
    assert Blank(s[..i]);
    assert r == s[i..j];
  }

  /** What `trimStart` cuts off is all spaces. */
  lemma LeadingBlank(s: string)
    ensures Blank(s[..|s| - |TrimStart(s)|])
  {
    var i := |s| - |TrimStart(s)|;
    forall k | 0 <= k < i ensures IsSpace(s[..i][k]) {
      assert s[..i][k] == s[k];
    }
  }

  /** A prefix `r` of a suffix `t` of `s` sits in `s` right where `t` starts,
      and whatever of `t` follows `r` is what of `s` follows it. */
  lemma PrefixOfSuffix(s: string, t: string, r: string)
    requires |t| <= |s| && t == s[|s| - |t|..]
    requires |r| <= |t| && r == t[..|r|]
    requires forall k :: |r| <= k < |t| ==> IsSpace(t[k])
    ensures r == s[|s| - |t|..|s| - |t| + |r|]
    ensures forall k :: |s| - |t| + |r| <= k < |s| ==> IsSpace(s[k])
  {
    var i := |s| - |t|;
    forall k | i + |r| <= k < |s| ensures IsSpace(s[k]) {
      assert s[k] == t[k - i];
    }
  }

  /** `s.trim()` is empty exactly when `s` consists of spaces only. */
  lemma {:induction false} TrimEmptyIffBlank(s: string)
    ensures Trim(s) == [] <==> Blank(s)
  {
    var t := TrimStart(s);
    if t != [] {
      assert t[0] == s[|s| - |t|];
    }
  }

  /** A string without spaces at either end is its own trim. */
  lemma {:induction false} TrimOfTrimmed(s: string)
    requires s == [] || (!IsSpace(s[0]) && !IsSpace(s[|s| - 1]))
    ensures Trim(s) == s
  {
    assert TrimStart(s) == s;
    assert TrimEnd(s) == s;
  }

  /** Trimming twice is trimming once. */
  lemma {:induction false} TrimIdempotent(s: string)
    ensures Trim(Trim(s)) == Trim(s)
  {
    TrimOfTrimmed(Trim(s));
  }

  /** The leading "/" of `p` survives concatenation behind any prefix. */
  lemma {:induction false} StartsWithAppend(a: string, p: string)
    requires StartsWith(p, "/")
    ensures StartsWith(a + p, a + "/")
  {
    assert (a + p)[..|a| + 1] == a + p[..1];
  }
}

=== FILE: profileeditor.dfy ===
/** The profile page's form logic: filling the form from the cached profile,
    and turning the submitted form into the update sent for the user's
    `profiles` row. */
module ProfileEditor {
  import opened Wrappers
  import opened JsString
  import opened Types

  /** The editable fields, as typed. */
  datatype ProfileForm = ProfileForm(
    fullName: string,
    phoneNumber: string,
    bio: string,
    linkedinUrl: string,
    twitterUrl: string,
    githubUrl: string)

  /** The form before anything is loaded. */
  const EmptyForm: ProfileForm := ProfileForm("", "", "", "", "", "")

  /** Until loading is over with a session and a cached profile, the form
      stays as it started: empty. */
  lemma InitialFormStaysEmpty(authIsLoading: bool, session: Option<Session>, profile: Option<Profile>)
    requires authIsLoading || session.None? || profile.None?
    ensures SyncForm(authIsLoading, session, profile, EmptyForm).form == EmptyForm
  {
  }

  /** Where a visitor without a session is sent. */
  const LoginRedirect: string := "/login?next=/profile"

  /** The social-link keys the form edits. */
  const LinkedIn: string := "linkedin"
  const Twitter: string := "twitter"
  const GitHub: string := "github"

  /** The three keys are distinct (their lengths differ). */
  lemma LinkKeysDistinct()
    ensures LinkedIn != Twitter && Twitter != GitHub && LinkedIn != GitHub
  {
    assert |LinkedIn| == 8 && |Twitter| == 7 && |GitHub| == 6;
  }

  /** `value || ""`. */
  function OrEmpty(value: Option<string>): string {
    value.GetOr("")
  }

  /** `profile.social_links?.[key] || ""`. */
  function LinkOf(links: Option<map<string, string>>, key: string): (url: string)
    ensures links.None? || key !in links.value ==> url == ""
    ensures links.Some? && key in links.value ==> url == links.value[key]
  {
    if links.Some? && key in links.value then links.value[key] else ""
  }

  /** The form as filled from a profile: each absent or null field, and each
      missing link, becomes the empty string; every other key of the social
      links is ignored. */
  function FormFromProfile(p: Profile): (f: ProfileForm)
    ensures p.fullName.None? ==> f.fullName == ""
    ensures p.fullName.Some? ==> f.fullName == p.fullName.value
    ensures p.phoneNumber.None? ==> f.phoneNumber == ""
    ensures p.phoneNumber.Some? ==> f.phoneNumber == p.phoneNumber.value
    ensures p.bio.None? ==> f.bio == ""
    ensures p.bio.Some? ==> f.bio == p.bio.value
    ensures f.linkedinUrl == LinkOf(p.socialLinks, LinkedIn)
    ensures f.twitterUrl == LinkOf(p.socialLinks, Twitter)
    ensures f.githubUrl == LinkOf(p.socialLinks, GitHub)
    ensures p.socialLinks.None? ==> f.linkedinUrl == "" && f.twitterUrl == "" && f.githubUrl == ""
  {
    ProfileForm(
      OrEmpty(p.fullName),
      OrEmpty(p.phoneNumber),
      OrEmpty(p.bio),
      LinkOf(p.socialLinks, LinkedIn),
      LinkOf(p.socialLinks, Twitter),
      LinkOf(p.socialLinks, GitHub))
  }

  /** What the page's effect does when the store changes: the new form, and
      where the visitor is sent, if anywhere. */
  datatype FormSync = FormSync(form: ProfileForm, redirectTo: Option<string>)

  /** The form is refilled only once loading is over, a session exists and a
      profile is cached; a finished load without a session sends the visitor
      to the login page instead. Otherwise the form is kept. */
  function SyncForm(authIsLoading: bool, session: Option<Session>, profile: Option<Profile>,
                    current: ProfileForm): (r: FormSync)
    ensures r.form != current ==> !authIsLoading && session.Some? && profile.Some?
    ensures !authIsLoading && session.Some? && profile.Some? ==> r.form == FormFromProfile(profile.value)
    ensures r.redirectTo.Some? <==> !authIsLoading && session.None?
    ensures r.redirectTo.Some? ==> r.redirectTo.value == LoginRedirect
  {
    if authIsLoading then FormSync(current, None)
    else if session.None? then FormSync(current, Some(LoginRedirect))
    else if profile.Some? then FormSync(FormFromProfile(profile.value), None)
    else FormSync(current, None)
  }

  /** The update sent for a profile row (the clock timestamp aside). A social
      link entry of None is sent as null. */
  datatype ProfileUpdate = ProfileUpdate(
    userId: string,
    fullName: string,
    phoneNumber: string,
    bio: string,
    socialLinks: Option<map<string, Option<string>>>)

  /** Why a submission is refused before anything is sent. */
  datatype SubmitError = NotAuthenticated | PhoneRequired

  /** One link field: its trimmed text, or null when that is empty. */
  function LinkValue(url: string): (v: Option<string>)
    ensures v.None? <==> Trim(url) == ""
    ensures v.Some? ==> v.value == Trim(url)
  {
    TrimIdempotent(url);
    if Trim(url) != "" then Some(Trim(url)) else None
  }

  /** A link map with exactly the three edited keys. */
  function LinksMap(linkedin: Option<string>, twitter: Option<string>, github: Option<string>)
    : (m: map<string, Option<string>>)
    ensures m.Keys == {LinkedIn, Twitter, GitHub}
    ensures m[LinkedIn] == linkedin && m[Twitter] == twitter && m[GitHub] == github
  {
    LinkKeysDistinct();
    map[LinkedIn := linkedin, Twitter := twitter, GitHub := github]
  }

  /** The link map the submit handler builds: all three keys, each the
      trimmed link or null. */
  function LinksPayload(f: ProfileForm): (m: map<string, Option<string>>)
    ensures m.Keys == {LinkedIn, Twitter, GitHub}
    ensures m[LinkedIn] == LinkValue(f.linkedinUrl)
    ensures m[Twitter] == LinkValue(f.twitterUrl)
    ensures m[GitHub] == LinkValue(f.githubUrl)
  {
    LinksMap(LinkValue(f.linkedinUrl), LinkValue(f.twitterUrl), LinkValue(f.githubUrl))
  }

  /** Some entry of the link map is non-null with non-blank text. */
  predicate HasLink(m: map<string, Option<string>>) {
    exists k :: k in m && m[k].Some? && Trim(m[k].value) != ""
  }

  /** The link map is sent only when it has a link; otherwise null is sent,
      clearing all links. */
  function FinalLinks(m: map<string, Option<string>>): (r: Option<map<string, Option<string>>>)
    ensures r.None? || r == Some(m)
    ensures r.Some? <==> HasLink(m)
    ensures (forall k :: k in m ==> m[k].None?) ==> r.None?
  {
    if HasLink(m) then Some(m) else None
  }

  /** A non-null link value is non-blank. */
  lemma LinkValueNotBlank(url: string)
    ensures LinkValue(url).Some? ==> Trim(LinkValue(url).value) != ""
  {
    TrimIdempotent(url);
  }

  /** `handleSubmit`: refused without a signed-in user, before anything else;
      refused when the phone number is blank; otherwise the trimmed fields and
      the link map go to the signed-in user's row. */
  function Submit(session: Option<Session>, f: ProfileForm): (r: Result<ProfileUpdate, SubmitError>)
    ensures session.None? ==> r == Failure(NotAuthenticated)
    ensures session.Some? && Blank(f.phoneNumber) ==> r == Failure(PhoneRequired)
    ensures r.Success? <==> session.Some? && !Blank(f.phoneNumber)
    ensures r.Success? ==>
              && r.value.userId == session.value.user.id
              && r.value.fullName == Trim(f.fullName)
              && r.value.phoneNumber == Trim(f.phoneNumber)
              && r.value.bio == Trim(f.bio)
              && r.value.phoneNumber != ""
              && r.value.socialLinks == FinalLinks(LinksPayload(f))
  {
    TrimEmptyIffBlank(f.phoneNumber);
    if session.None? then Failure(NotAuthenticated)
    else if Trim(f.phoneNumber) == "" then Failure(PhoneRequired)
    else Success(ProfileUpdate(
      session.value.user.id,
      Trim(f.fullName),
      Trim(f.phoneNumber),
      Trim(f.bio),
      FinalLinks(LinksPayload(f))))
  }

  /** The links sent are null exactly when all three link fields are blank;
      otherwise all three keys are sent, each its trimmed text or null. */
  lemma {:induction false} LinksNullIffAllBlank(f: ProfileForm)
    ensures FinalLinks(LinksPayload(f)).None?
            <==> Trim(f.linkedinUrl) == "" && Trim(f.twitterUrl) == "" && Trim(f.githubUrl) == ""
    ensures FinalLinks(LinksPayload(f)).Some? ==> FinalLinks(LinksPayload(f)).value == LinksPayload(f)
  {
    var l, t, g := LinkValue(f.linkedinUrl), LinkValue(f.twitterUrl), LinkValue(f.githubUrl);
    LinkValueNotBlank(f.linkedinUrl);
    LinkValueNotBlank(f.twitterUrl);
    LinkValueNotBlank(f.githubUrl);
    assert LinksPayload(f) == LinksMap(l, t, g);
    FinalLinksOfThree(l, t, g);
    assert FinalLinks(LinksMap(l, t, g)).None? <==> l.None? && t.None? && g.None?;
  }

  /** A three-key map of non-blank-or-null links is sent exactly when one of
      them is non-null. */
  lemma FinalLinksOfThree(linkedin: Option<string>, twitter: Option<string>, github: Option<string>)
    requires linkedin.Some? ==> Trim(linkedin.value) != ""
    requires twitter.Some? ==> Trim(twitter.value) != ""
    requires github.Some? ==> Trim(github.value) != ""
    ensures FinalLinks(LinksMap(linkedin, twitter, github)).None?
            <==> linkedin.None? && twitter.None? && github.None?
  {
    var m := LinksMap(linkedin, twitter, github);
    if linkedin.Some? {
      assert LinkedIn in m && m[LinkedIn].Some? && Trim(m[LinkedIn].value) != "";
    } else if twitter.Some? {
      assert Twitter in m && m[Twitter].Some? && Trim(m[Twitter].value) != "";
    } else if github.Some? {
      assert GitHub in m && m[GitHub].Some? && Trim(m[GitHub].value) != "";
    } else {
      NoLinkWhenAllNull(m);
    }
  }

  /** A map whose every entry is null has no link. */
  lemma NoLinkWhenAllNull(m: map<string, Option<string>>)
    requires forall k :: k in m ==> m[k].None?
    ensures !HasLink(m)
  {
  }

  /** The form with every field trimmed. */
  function TrimForm(f: ProfileForm): ProfileForm {
    ProfileForm(Trim(f.fullName), Trim(f.phoneNumber), Trim(f.bio),
                Trim(f.linkedinUrl), Trim(f.twitterUrl), Trim(f.githubUrl))
  }

  /** The profile row after an accepted update, as the profile type can hold
      it: null link entries are dropped, since the type's link map has string
      values and the form reads a null entry and a missing key alike. */
  function ApplyUpdate(p: Profile, u: ProfileUpdate): Profile {
    p.(fullName := Some(u.fullName),
       phoneNumber := Some(u.phoneNumber),
       bio := Some(u.bio),
       socialLinks :=
         match u.socialLinks
         case None => None
         case Some(m) => Some(map k | k in m && m[k].Some? :: m[k].value))
  }

  /** Saving the form and reading the row back into the form gives the form
      trimmed: nothing but surrounding spaces is lost. */
  lemma {:induction false} SubmitThenReload(session: Session, f: ProfileForm, p: Profile)
    requires !Blank(f.phoneNumber)
    ensures Submit(Some(session), f).Success?
    ensures FormFromProfile(ApplyUpdate(p, Submit(Some(session), f).value)) == TrimForm(f)
  {
    LinksNullIffAllBlank(f);
    TrimEmptyIffBlank(f.linkedinUrl);
    TrimEmptyIffBlank(f.twitterUrl);
    TrimEmptyIffBlank(f.githubUrl);
  }

  /** Loading a profile and saving it unchanged: a null name or biography comes
      back as the empty string rather than null, and any link keys beyond the
      three edited ones are dropped. */
  lemma {:induction false} ResubmitUnchanged(session: Session, p: Profile)
    requires !Blank(OrEmpty(p.phoneNumber))
    ensures Submit(Some(session), FormFromProfile(p)).Success?
    ensures p.fullName.None? ==> Submit(Some(session), FormFromProfile(p)).value.fullName == ""
    ensures p.bio.None? ==> Submit(Some(session), FormFromProfile(p)).value.bio == ""
    ensures ApplyUpdate(p, Submit(Some(session), FormFromProfile(p)).value).fullName.Some?
    ensures ApplyUpdate(p, Submit(Some(session), FormFromProfile(p)).value).bio.Some?
    ensures Submit(Some(session), FormFromProfile(p)).value.socialLinks.Some? ==>
              Submit(Some(session), FormFromProfile(p)).value.socialLinks.value.Keys
              == {LinkedIn, Twitter, GitHub}
  {
    var f := FormFromProfile(p);
    TrimEmptyIffBlank(f.phoneNumber);
    var u := Submit(Some(session), f).value;
    assert Trim("") == "";
    assert u.socialLinks.Some? ==> u.socialLinks.value == LinksPayload(f);
  }

}

=== FILE: types.dfy ===
/** The shared shapes of the application: the `profiles` row, the pieces of
    the authentication session the application looks at, and the result records the
    email/password operations return. */
module Types {
  import opened Wrappers

  /** The closed set of roles a profile can carry. */
  datatype Role = Student | Teacher | Admin

  /** The literal a role is stored as. */
  function RoleName(role: Role): (name: string)
    ensures name == "student" || name == "teacher" || name == "admin"
  {
    match role
    case Student => "student"
    case Teacher => "teacher"
    case Admin => "admin"
  }

  /** Reads a stored role literal; any other text is not a role. */
  function ParseRole(name: string): (r: Option<Role>)
    ensures r.Some? <==> (name == "student" || name == "teacher" || name == "admin")
    ensures r.Some? ==> RoleName(r.value) == name
  {
    if name == "student" then Some(Student)
    else if name == "teacher" then Some(Teacher)
    else if name == "admin" then Some(Admin)
    else None
  }

  /** Every role reads back from its literal, so the literals are distinct. */
  lemma RoleNameRoundTrip(role: Role)
    ensures ParseRole(RoleName(role)) == Some(role)
  {
  }

  /** A row of the `profiles` table. `id`, `role` and `isPhonePublic` are mandatory;
      every other field may be absent or null, which are both None here. */
  datatype Profile = Profile(
    id: string,
    fullName: Option<string>,
    avatarUrl: Option<string>,
    role: Role,
    bio: Option<string>,
    phoneNumber: Option<string>,
    isPhonePublic: bool,
    socialLinks: Option<map<string, string>>)

  /** An identity linked to an account (one per sign-in method). */
  datatype Identity = Identity(provider: string)

  /** The part of the authentication user record the application reads. */
  datatype User = User(id: string, email: Option<string>, identities: Option<seq<Identity>>)

  /** An authentication session; only its user matters to the authentication context. */
  datatype Session = Session(user: User)

  /** An error reported by the authentication service. */
  datatype AuthError = AuthError(message: string)

  /** `{ error: AuthError | null }`, what login and signup resolve to. */
  datatype AuthResult = AuthResult(error: Option<AuthError>)
}

=== FILE: wrappers.dfy ===
/** Optional values and success/failure results, standing in for TypeScript's
    `T | null` / `T | undefined` and for early-return error paths. */
module Wrappers {

  /** `T | null | undefined`: both absent and null are None. */
  datatype Option<+T> = None | Some(value: T) {

    /** The value, or `default` when absent. */
    function GetOr(default: T): T {
      match this
      case Some(v) => v
      case None => default
    }
  }

  /** The outcome of an operation that can be refused with a reason. */
  datatype Result<+R, +E> = Success(value: R) | Failure(error: E)
}
